=== FILE: README.md ===
# Wi-Fi profile switcher: Netplan compiler and apply workflow

This project models `change_wifi.py` from `proboticks/robot_setup` in Dafny. The tool reads named Wi-Fi profiles from a JSON file. It lets the operator pick one (or forces the stored access-point settings with `--ap`) and compiles the profile into a Netplan document for `wlan0` rendered by NetworkManager. It then either shows that document (`--dry-run`) or, once confirmed, writes it to `/etc/netplan/50-wifis.yaml` and reboots the host.

The model has two parts. Each takes the form of the source.

- **The compiler** (`netplan.dfy`) is pure. `GenerateNetplan` maps a `Profile` to a `Document` datatype whose optional parts (`auth`, `password`, `mode`, `addresses`) mirror the keys the source sets. It is proved against an independent reading of the document. `Decompile` recovers the profile's `Intent` (SSID, credentials, access-point role, DHCP, static address), and `RoundTrip` shows that nothing the profile asks for is lost.
- **The workflow** (`workflow.dfy`) is imperative. `select_profile_interactively` and `run` are methods with loops and early returns. They consume a finite sequence of input lines and return a trace of `Event`s (`effects.dfy`): printed messages, the config write, the two-second pause, the reboot, the exit and the uncaught exception that ends the process. Each method is proved against the specification functions `FirstValid`, `ChoiceFor`, `Selected` and `Applied`. The predicate `Performs` states what a trace does to the host: at most one write, to the Netplan path, of exactly the due document, and a reboot exactly when that write succeeded, as the last event and after the write.

Python's own behaviour is modelled where the workflow depends on it (`pytext.dfy`):

- `int()` on a selection line. It skips surrounding whitespace: the ASCII whitespace characters and the non-ASCII characters Python's `str.isspace` accepts, but not the separators U+001C to U+001F. It accepts one optional sign, digits grouped by single underscores and leading zeros. It rejects numerals of more than 4300 digits, Python's default limit on integer string conversion.
- `.lower() == 'y'` on the confirmation line.

The effects of the outside world are parameters:

- The outcome of `load_json` is a `Load` value: missing file, malformed JSON, or the loaded store.
- The typed lines are a `seq<string>`; running out of lines is `input()` raising `EOFError`.
- Whether the host accepts the file write is the `writeSucceeds` flag.

## Model

| member | source | states |
|---|---|---|
| Profiles.ForcedApProfile | change_wifi.py:83-86 | The `--ap` profile has `name` "Access Point Mode" and `mode` "Access Point". Every other key equals the stored `ap_settings` key, or is absent when `ap_settings` is absent. |
| Netplan.GenerateNetplan | change_wifi.py:24-64 | Fails exactly when `ssid` is missing, with `KeyError('ssid')`. Otherwise the document has version 2, renderer NetworkManager, the single optional interface `wlan0` and one entry keyed by the SSID. The entry holds the `auth` block iff the profile is enterprise (`auth_type == 'enterprise'` or `identity` present). The `auth` block is eap/peap/mschapv2 with identity and password copied; otherwise it holds the possibly null `password`, never both. `mode: ap` iff the profile's mode is "Access Point", whichever branch. `dhcp4` is `dhcp`, defaulting to true. `addresses == [ip]` iff DHCP is off and `ip` is present. |
| Netplan.RoundTrip | change_wifi.py:24-64 | For every profile with an SSID, decompiling the compiled document yields the profile's intent: SSID, credentials of the chosen branch, access-point role, DHCP flag and static address. |
| Netplan.OnlyIntentMatters | change_wifi.py:24-64 | Two profiles with the same intent compile to the same document: `name` and any other key the compiler ignores do not feed it. |
| PyText.DecimalDenotes | change_wifi.py:73 | The decimal numeral of every natural number is a valid digit body, one digit per character, whose digits denote that number. |
| PyText.ParseIntDecimal | change_wifi.py:73 | `int(str(i)) == i` for every integer `i` of at most 4300 digits, negative ones included. |
| PyText.ParseIntStrips | change_wifi.py:73 | `int()` ignores any run of whitespace around a numeral: the line reads as the numeral alone. |
| PyText.SeparatorsAroundNumerals | change_wifi.py:73 | A line starting with U+001C is rejected, while one starting with the no-break space U+00A0 reads as its numeral. |
| PyText.LongNumeralRejected | change_wifi.py:73 | The numeral of a number with more than 4300 digits is rejected. |
| PyText.ConfirmsExactly | change_wifi.py:118-119 | The confirmation test `input().lower() == 'y'` accepts exactly the lines `y` and `Y`. |
| Workflow.FirstValidIsFirst | change_wifi.py:71-78 | The line the selection loop stops at is in range and parses to a number in `1..n`, and every earlier line does not. If none is found, no line qualifies. |
| Workflow.ChoiceForPicksFirstValid | change_wifi.py:66-78 | Selection yields a profile iff every profile can be listed and some line is acceptable. The profile is `profiles[choice-1]` for the first acceptable line's `choice`, and every earlier line was rejected. |
| Workflow.FirstMissingIsFirst | change_wifi.py:68-69 | When the first `i` profiles can be listed, the listing fails on the key profile `i` lacks, if any. It does not fail at all once every profile is listed. |
| Workflow.ListingNumbersProfiles | change_wifi.py:67-69 | The listing is the header followed by one line per profile: line `i + 1` shows profile `i`'s name and SSID under the number `i + 1`. |
| Workflow.ListProfiles | change_wifi.py:67-69 | Fails iff some profile lacks `name` or `ssid`, with the `KeyError` of `FirstMissing`: the first key missing in the first such profile, `name` before `ssid`. A failed listing has printed exactly the header and the lines of the profiles before that one. Otherwise it prints exactly `Listing`. It always opens with the header and only prints. |
| Workflow.RejectedCounts | change_wifi.py:71-78 | After `k` rejected lines the loop has printed `k` prompts and `k` "Invalid selection" messages, and nothing else. |
| Workflow.ReadSelection | change_wifi.py:71-78 | The loop returns the index of the first acceptable line, as `FirstValid` defines it, or reports the end of input. Its output is one prompt and one complaint per rejected line, then the final prompt. |
| Workflow.SelectProfileInteractively | change_wifi.py:66-78 | Returns the profile `ChoiceFor` names and the number of lines consumed, never more than were typed. Otherwise it fails with the listing's `KeyError` or, when the input runs out, with `EOFError`. The returned profile has a `name` and an `ssid`. A failed listing leaves its partial output. With listable profiles the output is exactly the listing, a prompt and a complaint per rejected line, and the final prompt. It only prints. |
| Workflow.Choose | change_wifi.py:83-92 | Yields the `Selected` profile, after printing exactly its `Dialogue`. `--ap` reads no input and prints nothing. An empty profile list prints "No profiles found" and selects nothing. A selection that yields no profile ends with its exception (`SelectionFault`: the listing's `KeyError`, or `EOFError`) after output only. No path here writes or reboots. |
| Workflow.ApplyEffectsWriteThenReboot | change_wifi.py:125-133 | Applying writes exactly the document, once, to the Netplan path, as its first effect. It reboots exactly once, last, when the write succeeded, and never otherwise. |
| Workflow.Conclude | change_wifi.py:110-133 | A dry run shows the document and touches nothing. Otherwise the document is written and the host rebooted (write first, each once) exactly when `--force` is given or the next line confirms. Without `--force` it first prints the reboot warning and the `Proceed? (y/N)` prompt; with `--force` it prints exactly the bypass notice and "Applying Netplan Changes". An approved write announces "Applying" last before the effects. A declined answer prints the abort notice last and does nothing; a missing answer raises `EOFError`. An approved write ends with the reboot, or with the `OSError` the write raised. |
| Workflow.Proceed | change_wifi.py:99-133 | After the output so far, the next event is the summary of the compiled profile; the rest performs the write and the reboot exactly when approved. A dry run ends by showing the document, and an approved write that fails ends with `OSError`. |
| Workflow.AppliedOnlyWithConsent | change_wifi.py:80-133 | A document is applied iff all of these hold: it is not a dry run, the store loaded, a profile was selected and has an SSID, and either `--force` is given or the line after the selection is `y` or `Y`. The applied document is the compiled one and is well formed. |
| Workflow.Run | change_wifi.py:80-133 | The whole trace performs exactly `Applied`: one write of the compiled document to `/etc/netplan/50-wifis.yaml`, then the reboot last, only when due, and nothing otherwise. A dry run ends by showing the compiled document. A missing file prints the error and exits with 1. Malformed JSON raises. An empty profile list (without `--ap`) prints only "No profiles found". A `--ap` profile without an SSID raises `KeyError('ssid')` in `generate_netplan` (change_wifi.py:32) before anything is printed or written, so that exception is the only event. A failed selection ends with its `KeyError` or `EOFError` after output only. A failed write ends the run with `OSError`. Whenever a profile is selected and compiled, the trace opens with the selection dialogue (`Dialogue`: the listing, a prompt and complaint per rejected line, the last prompt; nothing under `--ap`) followed at once by the profile's summary, so the summary comes before the dry-run output, the confirmation and the write. |

## Left out

- JSON values are modelled as documented: strings for text keys and a boolean for `dhcp`. A key holding JSON `null` is treated as absent. Only in the output document is a present-but-null `password` distinguished. Truthiness of non-boolean `dhcp` values is not modelled.
- Python's `int()` also accepts non-ASCII decimal digits (for example Arabic-Indic digits). The model accepts ASCII digits only.
- `LowerChar` lowers `A`-`Z` only. No other character lowercases to `y`, so the confirmation decision is unaffected.
- `yaml.dump` is not modelled. The document is carried as a value in the trace, and serialisation cannot fail.
- The summary is one `Summary` message carrying the name, SSID, mode (defaulting to "Client"), identity and DHCP flag. The exact text, separators and blank lines of the source's prints are not modelled.
- File I/O is abstracted:
  - `load_json` (existence check, read, `json.load`) is the `Load` parameter.
  - The file write is the `WriteConfig` event. `writeSucceeds == false` models `open`/`write` raising `OSError` after the attempt.
- `time.sleep(2)` and `subprocess.run(['reboot'])` are trace events. A reboot command that fails or returns is not modelled.
- The argument parser, the `os.geteuid` root check and the `__main__` block (change_wifi.py:135-146) are not modelled. The flags are parameters of `Workflow.Run`.
- `deploy/generate_configs.py` is not part of this model. It only templates the input file.
- The selection loop in the source re-prompts forever. Here the input is finite, so a run that never gets an acceptable line ends with `EOFError`, which is what Python's `input()` raises at end of input.

=== FILE: effects.dfy ===
/**
 * What a run does to the outside world, as a trace of events: lines written
 * to the terminal, the write of the Netplan file, the pause, the reboot, a
 * process exit and an uncaught Python exception.
 */
module Effects {
  import opened Wrappers
  import opened Netplan

  /** The exceptions the workflow lets escape. */
  datatype Fault =
    | KeyError(key: string)   // a mandatory profile key is missing
    | EOFError                // standard input ended during a prompt
    | JSONDecodeError         // the profile file is not valid JSON
    | OSError                 // the Netplan file could not be written

  /** The terminal output, by meaning rather than by exact text. */
  datatype Message =
    | FileNotFound(path: string)
    | ProfilesHeader
    | ProfileLine(number: nat, name: string, ssid: string)
    | SelectPrompt(count: nat)
    | InvalidSelection
    | NoProfiles
    | Summary(name: string, ssid: string, mode: string, identity: Option<string>, dhcp: bool)
    | DryRunYaml(doc: Document)
    | RebootWarning
    | ConfirmPrompt
    | Aborted
    | ForceNotice
    | Applying
    | Saved

  datatype Event =
    | Stdout(msg: Message)
    | WriteConfig(path: string, doc: Document)
    | Sleep(seconds: nat)
    | Reboot
    | Exit(code: int)
    | Crash(fault: Fault)

  /** The documents written by a trace, in order. */
  function Written(t: seq<Event>): seq<Document> {
    if t == [] then []
    else (if t[0].WriteConfig? then [t[0].doc] else []) + Written(t[1..])
  }

  /** How often `e` occurs in `t`. */
  function Count(t: seq<Event>, e: Event): nat {
    if t == [] then 0
    else (if t[0] == e then 1 else 0) + Count(t[1..], e)
  }

  /** Every write in `t` goes to `path`. */
  predicate WritesOnlyTo(t: seq<Event>, path: string) {
    forall i :: 0 <= i < |t| && t[i].WriteConfig? ==> t[i].path == path
  }

  /** A trace that only prints. */
  predicate OnlyOutput(t: seq<Event>) {
    forall i :: 0 <= i < |t| ==> t[i].Stdout?
  }

  /**
   * What a trace does to the host, given the document it should apply (if
   * any): it writes exactly that document once, to `path`, or writes
   * nothing; it reboots once, as its last event and after the write, exactly
   * when the document is due and the write succeeded.
   */
  predicate Performs(t: seq<Event>, applied: Option<Document>, path: string, writeSucceeds: bool) {
    && Written(t) == (if applied.Some? then [applied.value] else [])
    && WritesOnlyTo(t, path)
    && Count(t, Reboot) == (if applied.Some? && writeSucceeds then 1 else 0)
    && (Count(t, Reboot) > 0 ==> t[|t| - 1] == Reboot && exists i :: 0 <= i < |t| - 1 && t[i].WriteConfig?)
  }

  /** A trace without a write or a reboot event. */
  predicate Inert(t: seq<Event>) {
    forall i :: 0 <= i < |t| ==> !t[i].WriteConfig? && t[i] != Reboot
  }

  /** An inert trace writes nothing and does not reboot. */
  lemma {:induction false} InertIsHarmless(t: seq<Event>)
    requires Inert(t)
    ensures Written(t) == [] && Count(t, Reboot) == 0
  {
    if t != [] {
      InertIsHarmless(t[1..]);
    }
  }

  /** The writes of a trace made of two parts are those of the parts, in order. */
  lemma {:induction false} WrittenConcat(a: seq<Event>, b: seq<Event>)
    ensures Written(a + b) == Written(a) + Written(b)
  {
    if a == [] {
      assert a + b == b;
    } else {
      assert (a + b)[0] == a[0] && (a + b)[1..] == a[1..] + b;
      WrittenConcat(a[1..], b);
      if a[0].WriteConfig? {
        var head := [a[0].doc];
        assert head + (Written(a[1..]) + Written(b)) == (head + Written(a[1..])) + Written(b);
      }
    }
  }

  /** Occurrences in a trace made of two parts add up. */
  lemma {:induction false} CountConcat(a: seq<Event>, b: seq<Event>, e: Event)
    ensures Count(a + b, e) == Count(a, e) + Count(b, e)
  {
    if a == [] {
      assert a + b == b;
    } else {
      assert (a + b)[1..] == a[1..] + b;
      CountConcat(a[1..], b, e);
    }
  }

  /** An inert trace applies nothing. */
  lemma InertPerformsNothing(t: seq<Event>, path: string, writeSucceeds: bool)
    requires Inert(t)
    ensures Performs(t, None, path, writeSucceeds)
  {
    InertIsHarmless(t);
  }

  /** Printing before a trace adds no write and no reboot, and leaves its last event last. */
  lemma OutputPrefix(quiet: seq<Event>, t: seq<Event>, path: string)
    requires OnlyOutput(quiet)
    ensures Written(quiet + t) == Written(t)
    ensures Count(quiet + t, Reboot) == Count(t, Reboot)
    ensures WritesOnlyTo(t, path) ==> WritesOnlyTo(quiet + t, path)
    ensures |t| > 0 ==> (quiet + t)[|quiet + t| - 1] == t[|t| - 1]
  {
    InertIsHarmless(quiet);
    WrittenConcat(quiet, t);
    CountConcat(quiet, t, Reboot);
  }

  /** Printing before a trace does not change what it does to the host. */
  lemma OutputThenPerforms(quiet: seq<Event>, t: seq<Event>, applied: Option<Document>, path: string, writeSucceeds: bool)
    requires OnlyOutput(quiet)
    requires Performs(t, applied, path, writeSucceeds)
    ensures Performs(quiet + t, applied, path, writeSucceeds)
  {
    OutputPrefix(quiet, t, path);
    if Count(t, Reboot) > 0 {
      var i :| 0 <= i < |t| - 1 && t[i].WriteConfig?;
      assert (quiet + t)[|quiet| + i] == t[i];
    }
  }
}

=== FILE: netplan.dfy ===
/**
 * The Netplan compiler: the map from one profile to the Netplan document that
 * configures `wlan0` through NetworkManager.
 */
module Netplan {
  import opened Wrappers
  import opened Profiles

  const NetplanVersion := 2
  const Renderer := "NetworkManager"
  const Interface := "wlan0"
  /** The access-point role written into an entry when the profile asks for it. */
  const ApRole := "ap"
  const KeyManagementEap := "eap"
  const MethodPeap := "peap"
  const Phase2Mschapv2 := "mschapv2"

  /** The enterprise `auth` block of an access-point entry. */
  datatype Auth = Auth(
    keyManagement: string,
    eapMethod: string,
    identity: Option<string>,
    password: Option<string>,
    phase2Auth: string)

  /**
   * One entry of `access-points`. `password` is `None` when the key is
   * absent and `Some(None)` when the key is present with a null value.
   */
  datatype AccessPoint = AccessPoint(
    auth: Option<Auth>,
    password: Option<Option<string>>,
    mode: Option<string>)

  /** The `wlan0` node: `dhcp4`, `optional`, `access-points` and, optionally, `addresses`. */
  datatype WifiNode = WifiNode(
    dhcp4: bool,
    optional: bool,
    accessPoints: map<string, AccessPoint>,
    addresses: Option<seq<string>>)

  /** The body of the top-level `network` key. */
  datatype Network = Network(version: int, renderer: string, wifis: map<string, WifiNode>)

  /** The whole document: `{network: ...}`. */
  datatype Document = Document(network: Network)

  /** Enterprise authentication is chosen by `auth_type` or by the mere presence of `identity`. */
  predicate IsEnterprise(p: Profile) {
    p.authType == Some(EnterpriseAuth) || p.identity.Some?
  }

  /** The DHCP flag of a profile, `true` when the key is absent. */
  function DhcpOf(p: Profile): bool {
    p.dhcp.GetOr(true)
  }

  /**
   * The shape every compiled document has: the fixed envelope, one interface
   * `wlan0` marked optional, exactly one access-point entry keyed by `ssid`,
   * exactly one of `auth` and `password` in that entry, and static addresses
   * only when DHCP is off.
   */
  predicate WellFormed(doc: Document, ssid: string) {
    var net := doc.network;
    && net.version == NetplanVersion
    && net.renderer == Renderer
    && net.wifis.Keys == {Interface}
    && var node := net.wifis[Interface];
    && node.optional
    && node.accessPoints.Keys == {ssid}
    && (node.accessPoints[ssid].auth.Some? != node.accessPoints[ssid].password.Some?)
    && (node.addresses.Some? ==> !node.dhcp4)
  }

  /** The `wlan0` node of a well-formed document. */
  function Node(doc: Document, ssid: string): WifiNode
    requires WellFormed(doc, ssid)
  {
    doc.network.wifis[Interface]
  }

  /** The single access-point entry of a well-formed document. */
  function Entry(doc: Document, ssid: string): AccessPoint
    requires WellFormed(doc, ssid)
  {
    Node(doc, ssid).accessPoints[ssid]
  }

  /**
   * `generate_netplan`: compiles a profile. The only failure is the lookup of
   * the mandatory `ssid` key, which raises `KeyError('ssid')`; the error value
   * is the missing key.
   */
  function GenerateNetplan(p: Profile): (r: Result<Document, string>)
    ensures r.Failure? <==> p.ssid.None?
    ensures r.Failure? ==> r.error == "ssid"
    ensures r.Success? ==> WellFormed(r.value, p.ssid.value)
    // exactly one authentication branch, chosen by the derived enterprise rule
    ensures r.Success? ==>
      var ap := Entry(r.value, p.ssid.value);
      (ap.auth.Some? <==> IsEnterprise(p)) && (ap.password.Some? <==> !IsEnterprise(p))
    ensures r.Success? && IsEnterprise(p) ==>
      Entry(r.value, p.ssid.value).auth ==
        Some(Auth(KeyManagementEap, MethodPeap, p.identity, p.password, Phase2Mschapv2))
    ensures r.Success? && !IsEnterprise(p) ==>
      Entry(r.value, p.ssid.value).password == Some(p.password)
    // the access-point role, independent of the authentication branch
    ensures r.Success? ==>
      var mode := Entry(r.value, p.ssid.value).mode;
      (mode.Some? <==> p.mode == Some(AccessPointMode)) && (mode.Some? ==> mode.value == ApRole)
    // addressing
    ensures r.Success? ==> Node(r.value, p.ssid.value).dhcp4 == DhcpOf(p)
    ensures r.Success? ==>
      var addresses := Node(r.value, p.ssid.value).addresses;
      (addresses.Some? <==> !DhcpOf(p) && p.ip.Some?) &&
      (addresses.Some? ==> addresses.value == [p.ip.value])
  {
    match p.ssid
    case None => Failure("ssid")
    case Some(ssid) =>
      var credentials :=
        if IsEnterprise(p) then
          AccessPoint(Some(Auth(KeyManagementEap, MethodPeap, p.identity, p.password, Phase2Mschapv2)), None, None)
        else
          AccessPoint(None, Some(p.password), None);
      var entry := if p.mode == Some(AccessPointMode) then credentials.(mode := Some(ApRole)) else credentials;
      var node := WifiNode(DhcpOf(p), true, map[ssid := entry],
                           if !DhcpOf(p) && p.ip.Some? then Some([p.ip.value]) else None);
      Success(Document(Network(NetplanVersion, Renderer, map[Interface := node])))
  }

  /** How the device will authenticate, as far as the document says. */
  datatype Credentials = Psk(password: Option<string>) | Eap(identity: Option<string>, password: Option<string>)

  /** What a profile asks of the network configuration, with everything the compiler ignores removed. */
  datatype Intent = Intent(
    ssid: string,
    credentials: Credentials,
    accessPoint: bool,
    dhcp: bool,
    staticIp: Option<string>)

  /** The intent of a profile that has an `ssid`. */
  function IntentOf(p: Profile): Intent
    requires p.ssid.Some?
  {
    Intent(
      p.ssid.value,
      if IsEnterprise(p) then Eap(p.identity, p.password) else Psk(p.password),
      p.mode == Some(AccessPointMode),
      DhcpOf(p),
      if !DhcpOf(p) then p.ip else None)
  }

  /**
   * Reads a document back: the intent it encodes, or `None` when the
   * document is not of the compiled shape (wrong envelope, more or fewer than
   * one entry, an unexpected authentication block, mode or address list).
   */
  ghost function Decompile(doc: Document): (r: Option<Intent>)
    ensures r.Some? ==> WellFormed(doc, r.value.ssid)
  {
    if !(exists ssid :: WellFormed(doc, ssid)) then None
    else
      var ssid :| WellFormed(doc, ssid);
      var node := Node(doc, ssid);
      var ap := Entry(doc, ssid);
      var credentials :=
        (match ap.auth
         case Some(a) =>
           if a.keyManagement == KeyManagementEap && a.eapMethod == MethodPeap && a.phase2Auth == Phase2Mschapv2
           then Some(Eap(a.identity, a.password)) else None
         case None => Some(Psk(ap.password.value)));
      var addressing :=
        (match node.addresses
         case None => Some(None)
         case Some(list) => if |list| == 1 then Some(Some(list[0])) else None);
      if credentials.None? || addressing.None? || (ap.mode.Some? && ap.mode.value != ApRole) then None
      else Some(Intent(ssid, credentials.value, ap.mode.Some?, node.dhcp4, addressing.value))
  }

  /** Nothing the profile asks for is lost: reading the compiled document back gives the profile's intent. */
  lemma RoundTrip(p: Profile)
    requires p.ssid.Some?
    ensures GenerateNetplan(p).Success?
    ensures Decompile(GenerateNetplan(p).value) == Some(IntentOf(p))
  {
    var doc := GenerateNetplan(p).value;
    var ssid := p.ssid.value;
    assert WellFormed(doc, ssid);
    forall other | WellFormed(doc, other) ensures other == ssid {
      assert other in Node(doc, ssid).accessPoints.Keys;
    }
  }

  /** The document is a function of the intent alone: `name`, and every other key the compiler ignores, do not feed it. */
  lemma OnlyIntentMatters(p: Profile, q: Profile)
    requires p.ssid.Some? && q.ssid.Some?
    requires IntentOf(p) == IntentOf(q)
    ensures GenerateNetplan(p) == GenerateNetplan(q)
  {
    assert IsEnterprise(p) == IsEnterprise(q) by {
      assert IntentOf(p).credentials.Eap? == IsEnterprise(p);
    }
  }
}

=== FILE: profiles.dfy ===
/**
 * The profile store: the records read from the JSON profile file, and the
 * override that turns the stored access-point settings into the profile used
 * when access-point mode is forced.
 */
module Profiles {
  import opened Wrappers

  /** Display name given to the forced access-point profile. */
  const ApProfileName := "Access Point Mode"
  /** Value of `mode` that requests access-point operation. */
  const AccessPointMode := "Access Point"
  /** Value of `auth_type` that requests enterprise authentication. */
  const EnterpriseAuth := "enterprise"

  /**
   * One connectivity profile. Every key of the JSON object is optional;
   * `None` stands for a key that is absent.
   */
  datatype Profile = Profile(
    name: Option<string>,
    ssid: Option<string>,
    authType: Option<string>,
    identity: Option<string>,
    password: Option<string>,
    mode: Option<string>,
    dhcp: Option<bool>,
    ip: Option<string>)

  /** The profile with no keys at all (the `{}` used when `ap_settings` is absent). */
  const EmptyProfile := Profile(None, None, None, None, None, None, None, None)

  /**
   * The loaded JSON document: the client profiles in display order (an absent
   * `profiles` key reads as the empty list) and the optional `ap_settings`.
   */
  datatype Store = Store(profiles: seq<Profile>, apSettings: Option<Profile>)

  /**
   * The profile selected by `--ap`: a copy of `ap_settings` (or of `{}`)
   * whose `name` and `mode` are overwritten; every other key is kept as
   * stored. The store itself is a value and is left as it was.
   */
  function ForcedApProfile(store: Store): (p: Profile)
    ensures p.name == Some(ApProfileName) && p.mode == Some(AccessPointMode)
    ensures store.apSettings.Some? ==>
      var ap := store.apSettings.value;
      p.ssid == ap.ssid && p.authType == ap.authType && p.identity == ap.identity &&
      p.password == ap.password && p.dhcp == ap.dhcp && p.ip == ap.ip
    ensures store.apSettings.None? ==>
      p.ssid.None? && p.authType.None? && p.identity.None? &&
      p.password.None? && p.dhcp.None? && p.ip.None?
  {
    store.apSettings.GetOr(EmptyProfile).(name := Some(ApProfileName), mode := Some(AccessPointMode))
  }
}

=== FILE: pytext.dfy ===
/**
 * The two pieces of Python string handling the workflow decides on: `int()`
 * applied to a selection line, and `.lower()` applied to the confirmation line.
 */
module PyText {
  import opened Wrappers

  predicate IsDigit(c: char) {
    '0' <= c <= '9'
  }

  /**
   * The characters `int()` skips around a numeral: the ASCII whitespace
   * ` \t\n\v\f\r`, and every non-ASCII character `str.isspace` accepts.
   * The ASCII separators U+001C..U+001F, although `str.isspace` accepts them,
   * are not skipped.
   */
  predicate IsSpace(c: char) {
    c in SpaceChars || ('\U{2000}' <= c <= '\U{200A}')
  }

  const SpaceChars: set<char> := {
    ' ', '\t', '\n', '\U{B}', '\U{C}', '\r',
    '\U{85}', '\U{A0}', '\U{1680}', '\U{2028}', '\U{2029}', '\U{202F}', '\U{205F}', '\U{3000}'
  }

  /** The most digits `int()` converts from a string (`sys.int_info.default_max_str_digits`). */
  const MaxStrDigits := 4300

  /**
   * The digits of a base-10 integer literal as `int()` accepts them: at least
   * one digit, digits separated by single underscores, none leading or
   * trailing. Read from the right: a digit, preceded by nothing, by a valid
   * body, or by an underscore and a valid body.
   */
  predicate IsDigitBody(b: string) {
    && |b| > 0
    && IsDigit(b[|b| - 1])
    && (|| |b| == 1
        || IsDigitBody(b[..|b| - 1])
        || (|b| > 2 && b[|b| - 2] == '_' && IsDigitBody(b[..|b| - 2])))
  }

  /** The value of the digits of `b`, most significant first; underscores are skipped. */
  function Magnitude(b: string): nat {
    if b == [] then 0
    else if IsDigit(b[|b| - 1]) then Magnitude(b[..|b| - 1]) * 10 + (b[|b| - 1] as int - '0' as int)
    else Magnitude(b[..|b| - 1])
  }

  /** The number of digits in `b`; underscores do not count. */
  function DigitCount(b: string): nat {
    if b == [] then 0
    else DigitCount(b[..|b| - 1]) + if IsDigit(b[|b| - 1]) then 1 else 0
  }

  /**
   * `int(line)`: the integer the line denotes, or `None` where Python raises
   * `ValueError`. Whitespace around the numeral is skipped, one character at
   * a time from either end.
   */
  function ParseInt(line: string): Option<int>
    decreases |line|
  {
    if line != [] && IsSpace(line[0]) then ParseInt(line[1..])
    else if line != [] && IsSpace(line[|line| - 1]) then ParseInt(line[..|line| - 1])
    else ParseNumeral(line)
  }

  /**
   * A numeral without surrounding whitespace: one optional sign directly
   * before the digits; leading zeros are accepted, and count towards the
   * limit of `MaxStrDigits` digits.
   */
  function ParseNumeral(t: string): Option<int> {
    var signed := |t| > 0 && (t[0] == '+' || t[0] == '-');
    var body := if signed then t[1..] else t;
    if !IsDigitBody(body) || DigitCount(body) > MaxStrDigits then None
    else if signed && t[0] == '-' then Some(-(Magnitude(body) as int))
    else Some(Magnitude(body))
  }

  /** `int()` reads a numeral the same whatever whitespace surrounds it. */
  lemma {:induction false} ParseIntStrips(pre: string, t: string, post: string)
    requires forall i :: 0 <= i < |pre| ==> IsSpace(pre[i])
    requires forall i :: 0 <= i < |post| ==> IsSpace(post[i])
    requires t != [] && !IsSpace(t[0]) && !IsSpace(t[|t| - 1])
    ensures ParseInt(pre + t + post) == ParseNumeral(t)
    decreases |pre| + |post|
  {
    var line := pre + t + post;
    if pre != [] {
      assert line[0] == pre[0] && line[1..] == pre[1..] + t + post;
      ParseIntStrips(pre[1..], t, post);
    } else if post != [] {
      assert line == t + post && line[0] == t[0] && line[|line| - 1] == post[|post| - 1];
      assert line[..|line| - 1] == [] + t + post[..|post| - 1];
      ParseIntStrips([], t, post[..|post| - 1]);
    } else {
      assert line == t;
    }
  }

  /**
   * The ASCII file separator is not skipped, so `int()` rejects it before a
   * digit; a no-break space there is skipped.
   */
  lemma SeparatorsAroundNumerals()
    ensures ParseInt("\U{1C}1") == None
    ensures ParseInt("\U{A0}1") == Some(1)
  {
    assert "\U{1C}1"[..1] == "\U{1C}";
    assert "\U{A0}1"[1..] == "1";
  }

  /** The shortest decimal numeral of `n`, as `str(n)` writes it. */
  function Decimal(n: nat): (r: string)
    ensures |r| > 0 && IsDigit(r[0]) && IsDigit(r[|r| - 1])
  {
    var last := ['0' + (n % 10) as char];
    if n < 10 then last else Decimal(n / 10) + last
  }

  /** The decimal numeral of any integer, with a `-` for negatives. */
  function IntToString(i: int): string {
    if i < 0 then "-" + Decimal(-i) else Decimal(i)
  }

  /** A numeral is a valid body of digits, one digit per character, and denotes the number it was written for. */
  lemma {:induction false} DecimalDenotes(n: nat)
    ensures IsDigitBody(Decimal(n))
    ensures DigitCount(Decimal(n)) == |Decimal(n)|
    ensures Magnitude(Decimal(n)) == n
  {
    var d := Decimal(n);
    if n >= 10 {
      assert d[..|d| - 1] == Decimal(n / 10);
      DecimalDenotes(n / 10);
    }
  }

  /**
   * `int(str(i)) == i` for every integer whose decimal numeral has at most
   * `MaxStrDigits` digits.
   */
  lemma ParseIntDecimal(i: int)
    requires |Decimal(if i < 0 then -i else i)| <= MaxStrDigits
    ensures ParseInt(IntToString(i)) == Some(i)
  {
    var s := IntToString(i);
    var d := Decimal(if i < 0 then -i else i);
    assert !IsSpace(s[0]) && !IsSpace(s[|s| - 1]);
    DecimalDenotes(if i < 0 then -i else i);
    if i < 0 {
      assert s[1..] == d;
    } else {
      assert s == d;
    }
  }

  /** A numeral of more than `MaxStrDigits` digits is rejected, whatever its value. */
  lemma LongNumeralRejected(n: nat)
    requires |Decimal(n)| > MaxStrDigits
    ensures ParseInt(Decimal(n)) == None
  {
    DecimalDenotes(n);
  }

  /** `str.lower()` on one character (only `A`-`Z` matter for the decisions modelled here). */
  function LowerChar(c: char): char {
    if 'A' <= c <= 'Z' then (c as int + 32) as char else c
  }

  /** `str.lower()` restricted to ASCII: only upper-case letters change, and none remain. */
  function Lower(s: string): (r: string)
    ensures |r| == |s|
    ensures forall i :: 0 <= i < |s| ==> !('A' <= r[i] <= 'Z')
    ensures forall i :: 0 <= i < |s| && !('A' <= s[i] <= 'Z') ==> r[i] == s[i]
  {
    seq(|s|, i requires 0 <= i < |s| => LowerChar(s[i]))
  }

  /** The confirmation test `input(...).lower() == 'y'`. */
  predicate Confirms(line: string) {
    Lower(line) == "y"
  }

  /** Exactly two answers confirm: `y` and `Y`. `yes`, `n`, the empty line and every other line decline. */
  lemma ConfirmsExactly(line: string)
    ensures Confirms(line) <==> line == "y" || line == "Y"
  {
    if line == "y" || line == "Y" {
      assert Lower(line) == [LowerChar(line[0])];
    }
    if Confirms(line) {
      assert Lower(line)[0] == LowerChar(line[0]);
    }
  }
}

=== FILE: workflow.dfy ===
/**
 * `WifiStandalone.select_profile_interactively` and `WifiStandalone.run`: the
 * interactive selection loop and the load / select / compile / summarise /
 * confirm / write / reboot sequence. Standard input is the finite sequence
 * `lines`; everything the program does outside itself is returned as a trace.
 */
module Workflow {
  import opened Wrappers
  import opened Profiles
  import opened Netplan
  import opened PyText
  import opened Effects

  /** Where the profile file is read from. */
  const ProfilesPath := "/home/ubuntu/wifi_configs.json"
  /** The Netplan file that is overwritten. */
  const NetplanPath := "/etc/netplan/50-wifis.yaml"
  /** Seconds slept between the write and the reboot. */
  const SettleSeconds := 2

  /** The result of reading the profile file. */
  datatype Load = Missing | Malformed | Loaded(store: Store)

  /** The key whose lookup fails when a profile is listed (`name` is read first). */
  function MissingKey(p: Profile): Option<string> {
    if p.name.None? then Some("name") else if p.ssid.None? then Some("ssid") else None
  }

  /** Every profile can be listed, so the prompt is reached. */
  predicate Listable(profiles: seq<Profile>) {
    forall i :: 0 <= i < |profiles| ==> MissingKey(profiles[i]).None?
  }

  /** The key whose lookup fails first when the profiles are listed in order, if any. */
  function FirstMissing(profiles: seq<Profile>): Option<string> {
    if profiles == [] then None
    else if MissingKey(profiles[0]).Some? then MissingKey(profiles[0])
    else FirstMissing(profiles[1..])
  }

  /**
   * When the first `i` profiles can be listed, the listing fails on the key
   * profile `i` lacks, if it lacks one, and does not fail at all when there
   * are no more profiles.
   */
  lemma {:induction false} FirstMissingIsFirst(profiles: seq<Profile>, i: nat)
    requires i <= |profiles| && Listable(profiles[..i])
    ensures i == |profiles| ==> FirstMissing(profiles).None?
    ensures i < |profiles| && MissingKey(profiles[i]).Some? ==> FirstMissing(profiles) == MissingKey(profiles[i])
  {
    if i > 0 {
      assert profiles[..i][0] == profiles[0];
      assert profiles[1..][..i - 1] == profiles[..i][1..];
      FirstMissingIsFirst(profiles[1..], i - 1);
    }
  }

  /** The listing fails somewhere exactly when some profile lacks a key. */
  lemma {:induction false} FirstMissingExactly(profiles: seq<Profile>)
    ensures FirstMissing(profiles).None? <==> Listable(profiles)
  {
    if profiles != [] {
      FirstMissingExactly(profiles[1..]);
      if MissingKey(profiles[0]).None? && !Listable(profiles) {
        var i :| 0 <= i < |profiles| && MissingKey(profiles[i]).Some?;
        assert profiles[1..][i - 1] == profiles[i];
      }
    }
  }

  /**
   * The exception that ends a selection yielding no profile: the `KeyError`
   * of the listing, or `EOFError` when every profile was listed and the input
   * ran out.
   */
  function SelectionFault(profiles: seq<Profile>): (f: Fault)
    ensures f.KeyError? <==> !Listable(profiles)
  {
    FirstMissingExactly(profiles);
    match FirstMissing(profiles)
    case Some(key) => KeyError(key)
    case None => EOFError
  }

  /** The listing of listable profiles: the header, then one numbered line per profile. */
  function Listing(profiles: seq<Profile>): seq<Event>
    requires Listable(profiles)
  {
    if profiles == [] then [Stdout(ProfilesHeader)]
    else
      var last := profiles[|profiles| - 1];
      Listing(profiles[..|profiles| - 1]) + [Stdout(ProfileLine(|profiles|, last.name.value, last.ssid.value))]
  }

  /** The listing opens with the header, and its line `i + 1` shows profile `i` under the number `i + 1`. */
  lemma {:induction false} ListingNumbersProfiles(profiles: seq<Profile>)
    requires Listable(profiles)
    ensures |Listing(profiles)| == |profiles| + 1 && Listing(profiles)[0] == Stdout(ProfilesHeader)
    ensures forall i :: 0 <= i < |profiles| ==>
      Listing(profiles)[i + 1] == Stdout(ProfileLine(i + 1, profiles[i].name.value, profiles[i].ssid.value))
    ensures OnlyOutput(Listing(profiles))
  {
    if profiles != [] {
      var init := profiles[..|profiles| - 1];
      ListingNumbersProfiles(init);
      forall i | 0 <= i < |init| ensures init[i] == profiles[i] {}
    }
  }

  /** A line selects one of `n` profiles when `int()` accepts it and it lies in `1..n`. */
  predicate ValidChoice(line: string, n: nat) {
    var c := ParseInt(line);
    c.Some? && 1 <= c.value <= n
  }

  /** The index of the first line that selects one of `n` profiles. */
  function FirstValid(lines: seq<string>, n: nat): Option<nat> {
    if lines == [] then None
    else if ValidChoice(lines[0], n) then Some(0)
    else match FirstValid(lines[1..], n)
      case None => None
      case Some(j) => Some(j + 1)
  }

  /** The line `FirstValid` finds selects a profile, and no line before it does. */
  lemma {:induction false} FirstValidIsFirst(lines: seq<string>, n: nat)
    ensures var r := FirstValid(lines, n);
      && (r.Some? ==>
           r.value < |lines| && ValidChoice(lines[r.value], n) &&
           forall k :: 0 <= k < r.value ==> !ValidChoice(lines[k], n))
      && (r.None? ==> forall k :: 0 <= k < |lines| ==> !ValidChoice(lines[k], n))
  {
    if lines != [] && !ValidChoice(lines[0], n) {
      FirstValidIsFirst(lines[1..], n);
      forall k | 1 <= k < |lines|
        ensures lines[k] == lines[1..][k - 1]
      {
      }
    }
  }

  /** An index into `lines[k..]` as an index into `lines`. */
  function Shift(found: Option<nat>, k: nat): Option<nat> {
    match found
    case None => None
    case Some(j) => Some(j + k)
  }

  /** A selected profile and the number of input lines read to select it. */
  datatype Pick = Pick(profile: Profile, consumed: nat)

  /**
   * What interactive selection returns: the profile numbered by the first
   * acceptable line, or nothing when a profile cannot be listed or the input
   * ends first.
   */
  function ChoiceFor(profiles: seq<Profile>, lines: seq<string>): Option<Pick> {
    FirstValidIsFirst(lines, |profiles|);
    if !Listable(profiles) then None
    else match FirstValid(lines, |profiles|)
      case None => None
      case Some(j) => Some(Pick(profiles[ParseInt(lines[j]).value - 1], j + 1))
  }

  /**
   * Selection yields a profile exactly when every profile can be listed and
   * some line is acceptable; the profile is the one the first acceptable
   * line numbers, and every line before it was rejected.
   */
  lemma ChoiceForPicksFirstValid(profiles: seq<Profile>, lines: seq<string>)
    ensures var r := ChoiceFor(profiles, lines);
      && (r.Some? <==> Listable(profiles) && FirstValid(lines, |profiles|).Some?)
      && (r.Some? ==>
           var j := r.value.consumed - 1;
           && 0 <= j < |lines|
           && (forall k :: 0 <= k < j ==> !ValidChoice(lines[k], |profiles|))
           && ParseInt(lines[j]).Some?
           && 1 <= ParseInt(lines[j]).value <= |profiles|
           && r.value.profile == profiles[ParseInt(lines[j]).value - 1])
  {
    FirstValidIsFirst(lines, |profiles|);
  }

  /** The profile `run` works on, and the number of lines read for it. */
  function Selected(store: Store, forceAp: bool, lines: seq<string>): Option<Pick> {
    if forceAp then Some(Pick(ForcedApProfile(store), 0))
    else if store.profiles == [] then None
    else ChoiceFor(store.profiles, lines)
  }

  /**
   * The document `run` writes, if any: the store was loaded, a profile was
   * selected and compiled, this is no dry run, and the write was confirmed by
   * the flag or by the line after the selection.
   */
  function Applied(load: Load, forceAp: bool, dryRun: bool, forceConfirm: bool, lines: seq<string>): Option<Document> {
    if !load.Loaded? || dryRun then None
    else match Selected(load.store, forceAp, lines)
      case None => None
      case Some(pick) =>
        match GenerateNetplan(pick.profile)
        case Failure(_) => None
        case Success(doc) =>
          if forceConfirm || (pick.consumed < |lines| && Confirms(lines[pick.consumed])) then Some(doc) else None
  }

  /**
   * The document is applied exactly when the run is no dry run, a profile was
   * selected and compiled, and the write was approved: by the force flag, or
   * by a line reading `y` or `Y` right after the lines the selection used.
   * What is applied is the compiled document of that profile.
   */
  lemma AppliedOnlyWithConsent(load: Load, forceAp: bool, dryRun: bool, forceConfirm: bool, lines: seq<string>)
    ensures var applied := Applied(load, forceAp, dryRun, forceConfirm, lines);
      applied.Some? <==>
        && !dryRun && load.Loaded?
        && Selected(load.store, forceAp, lines).Some?
        && var pick := Selected(load.store, forceAp, lines).value;
        && pick.profile.ssid.Some?
        && (forceConfirm || (pick.consumed < |lines| && (lines[pick.consumed] == "y" || lines[pick.consumed] == "Y")))
    ensures var applied := Applied(load, forceAp, dryRun, forceConfirm, lines);
      applied.Some? ==>
        var profile := Selected(load.store, forceAp, lines).value.profile;
        GenerateNetplan(profile) == Success(applied.value) && WellFormed(applied.value, profile.ssid.value)
  {
    if load.Loaded? {
      var pick := Selected(load.store, forceAp, lines);
      if pick.Some? && pick.value.consumed < |lines| {
        ConfirmsExactly(lines[pick.value.consumed]);
      }
    }
  }

  /** The outcome of the selection loop. */
  datatype Selection = Chosen(profile: Profile, consumed: nat) | Failed(fault: Fault)

  /**
   * The listing that opens `select_profile_interactively`: a header, then
   * `i) name (SSID: ssid)` for each profile numbered from 1. Reading `name`
   * or `ssid` of a profile that lacks it raises `KeyError` and ends the listing.
   */
  method ListProfiles(profiles: seq<Profile>) returns (fault: Option<Fault>, events: seq<Event>)
    ensures fault.None? <==> Listable(profiles)
    ensures fault == if FirstMissing(profiles).Some? then Some(KeyError(FirstMissing(profiles).value)) else None
    ensures fault.None? ==> events == Listing(profiles)
    // a failed listing has printed the profiles before the first one lacking a key
    ensures fault.Some? ==>
      0 < |events| <= |profiles| && Listable(profiles[..|events| - 1]) &&
      MissingKey(profiles[|events| - 1]).Some? && events == Listing(profiles[..|events| - 1])
    ensures |events| > 0 && events[0] == Stdout(ProfilesHeader)
    ensures OnlyOutput(events)
  {
    events := [Stdout(ProfilesHeader)];
    var i := 0;
    while i < |profiles|
      invariant 0 <= i <= |profiles|
      invariant Listable(profiles[..i])
      invariant events == Listing(profiles[..i]) && |events| == i + 1
      invariant events[0] == Stdout(ProfilesHeader) && OnlyOutput(events)
    {
      var p := profiles[i];
      FirstMissingIsFirst(profiles, i);
      if p.name.None? {
        return Some(KeyError("name")), events;
      }
      if p.ssid.None? {
        return Some(KeyError("ssid")), events;
      }
      assert profiles[..i + 1][..i] == profiles[..i];
      events := events + [Stdout(ProfileLine(i + 1, p.name.value, p.ssid.value))];
      i := i + 1;
    }
    assert profiles[..i] == profiles;
    FirstMissingIsFirst(profiles, i);
    fault := None;
  }

  /** The output of `k` rejected lines when `n` profiles are offered: a prompt and "Invalid selection" for each. */
  function Rejected(n: nat, k: nat): seq<Event> {
    if k == 0 then [] else Rejected(n, k - 1) + [Stdout(SelectPrompt(n)), Stdout(InvalidSelection)]
  }

  /** `k` rejected lines print `k` prompts and `k` complaints, and nothing else. */
  lemma {:induction false} RejectedCounts(n: nat, k: nat)
    ensures Count(Rejected(n, k), Stdout(SelectPrompt(n))) == k
    ensures Count(Rejected(n, k), Stdout(InvalidSelection)) == k
    ensures OnlyOutput(Rejected(n, k))
    ensures |Rejected(n, k)| == 2 * k
  {
    if k > 0 {
      var pair := [Stdout(SelectPrompt(n)), Stdout(InvalidSelection)];
      RejectedCounts(n, k - 1);
      assert Rejected(n, k) == Rejected(n, k - 1) + pair;
      assert pair[1..] == [Stdout(InvalidSelection)] && pair[1..][1..] == [];
      assert Count(pair[1..], Stdout(SelectPrompt(n))) == 0;
      assert Count(pair[1..], Stdout(InvalidSelection)) == 1;
      CountConcat(Rejected(n, k - 1), pair, Stdout(SelectPrompt(n)));
      CountConcat(Rejected(n, k - 1), pair, Stdout(InvalidSelection));
    }
  }

  /** One step of the search: the line at `k` either is taken or is skipped. */
  lemma FirstValidStep(lines: seq<string>, n: nat, k: nat)
    requires k < |lines|
    ensures FirstValid(lines[k..], n)
         == if ValidChoice(lines[k], n) then Some(0) else Shift(FirstValid(lines[k + 1..], n), 1)
  {
    assert lines[k..][0] == lines[k] && lines[k..][1..] == lines[k + 1..];
  }

  /**
   * The prompt loop of `select_profile_interactively` for `n` profiles:
   * prompts, reads a line, and returns on the first line that `int()`
   * accepts and that lies in `1..n`; any other line is answered with
   * "Invalid selection" and prompted again. `found` is the index of the
   * accepted line; `None` means the input ended at a prompt (`EOFError`).
   */
  method ReadSelection(n: nat, lines: seq<string>) returns (found: Option<nat>, events: seq<Event>)
    ensures found == FirstValid(lines, n)
    ensures events == Rejected(n, if found.Some? then found.value else |lines|) + [Stdout(SelectPrompt(n))]
  {
    var prompt := Stdout(SelectPrompt(n));
    events := [];
    var k := 0;
    while k < |lines|
      invariant 0 <= k <= |lines|
      invariant FirstValid(lines, n) == Shift(FirstValid(lines[k..], n), k)
      invariant events == Rejected(n, k)
    {
      FirstValidStep(lines, n, k);
      if ValidChoice(lines[k], n) {
        return Some(k), events + [prompt];
      }
      events := events + [prompt, Stdout(InvalidSelection)];
      k := k + 1;
    }
    found := None;
    events := events + [prompt];
  }

  /**
   * `select_profile_interactively`: the listing, then the prompt loop; the
   * profile returned is the one numbered by the first acceptable line.
   */
  method SelectProfileInteractively(profiles: seq<Profile>, lines: seq<string>) returns (r: Selection, events: seq<Event>)
    ensures !Listable(profiles) || lines == [] ==> r.Failed?
    ensures r.Chosen? ==> 0 < r.consumed <= |lines|
    ensures r.Chosen? <==> ChoiceFor(profiles, lines).Some?
    ensures r.Chosen? ==> ChoiceFor(profiles, lines) == Some(Pick(r.profile, r.consumed))
    ensures r.Chosen? ==> r.profile.name.Some? && r.profile.ssid.Some?
    ensures r.Failed? && !Listable(profiles) ==>
      FirstMissing(profiles).Some? && r.fault == KeyError(FirstMissing(profiles).value)
    ensures r.Failed? && Listable(profiles) ==> r.fault == EOFError
    ensures !Listable(profiles) ==>
      0 < |events| <= |profiles| && Listable(profiles[..|events| - 1]) &&
      MissingKey(profiles[|events| - 1]).Some? && events == Listing(profiles[..|events| - 1])
    // the listing, then one prompt per line read and a complaint for each rejected one
    ensures |events| > 0 && events[0] == Stdout(ProfilesHeader)
    ensures Listable(profiles) ==>
      events == Listing(profiles) +
        Rejected(|profiles|, if r.Chosen? then r.consumed - 1 else |lines|) + [Stdout(SelectPrompt(|profiles|))]
    // selection only prints
    ensures OnlyOutput(events)
  {
    var fault, listing := ListProfiles(profiles);
    if fault.Some? {
      return Failed(fault.value), listing;
    }
    var found, prompts := ReadSelection(|profiles|, lines);
    RejectedCounts(|profiles|, if found.Some? then found.value else |lines|);
    events := listing + prompts;
    if found.None? {
      return Failed(EOFError), events;
    }
    FirstValidIsFirst(lines, |profiles|);
    var j := found.value;
    r := Chosen(profiles[ParseInt(lines[j]).value - 1], j + 1);
  }

  /** The write, the pause and the reboot, or the write and the failure that stops it. */
  function ApplyEffects(doc: Document, writeSucceeds: bool): seq<Event> {
    [WriteConfig(NetplanPath, doc)] +
    if writeSucceeds then [Sleep(SettleSeconds), Stdout(Saved), Reboot] else [Crash(OSError)]
  }

  /** Applying writes the document once, to the Netplan file, and reboots last, only after a successful write. */
  lemma ApplyEffectsWriteThenReboot(doc: Document, writeSucceeds: bool)
    ensures Written(ApplyEffects(doc, writeSucceeds)) == [doc]
    ensures Count(ApplyEffects(doc, writeSucceeds), Reboot) == if writeSucceeds then 1 else 0
    ensures WritesOnlyTo(ApplyEffects(doc, writeSucceeds), NetplanPath)
    ensures var t := ApplyEffects(doc, writeSucceeds);
      t[0].WriteConfig? && t[|t| - 1] == if writeSucceeds then Reboot else Crash(OSError)
  {
    var t := ApplyEffects(doc, writeSucceeds);
    var rest := t[1..];
    assert Inert(rest[..|rest| - 1]);
    InertIsHarmless(rest[..|rest| - 1]);
    assert rest == rest[..|rest| - 1] + [rest[|rest| - 1]];
    WrittenConcat(rest[..|rest| - 1], [rest[|rest| - 1]]);
    CountConcat(rest[..|rest| - 1], [rest[|rest| - 1]], Reboot);
  }

  /**
   * The end of `run`, once the document is compiled and the summary printed:
   * a dry run shows the document; otherwise the write is confirmed (by the
   * flag, or by the line at `next` reading `y` in any case), and the document
   * is written and the host rebooted. `talk` is what is printed, `effects`
   * what follows it.
   */
  method Conclude(doc: Document, dryRun: bool, forceConfirm: bool, lines: seq<string>, next: nat, writeSucceeds: bool)
    returns (talk: seq<Event>, effects: seq<Event>)
    ensures OnlyOutput(talk)
    ensures Performs(effects, if !dryRun && (forceConfirm || (next < |lines| && Confirms(lines[next]))) then Some(doc) else None,
                     NetplanPath, writeSucceeds)
    ensures dryRun ==> effects == [] && |talk| > 0 && talk[|talk| - 1] == Stdout(DryRunYaml(doc))
    ensures !dryRun && !forceConfirm && next >= |lines| ==> effects == [Crash(EOFError)]
    // a declined answer prints the abort notice last and does nothing
    ensures !dryRun && !forceConfirm && next < |lines| && !Confirms(lines[next]) ==>
      effects == [] && |talk| > 0 && talk[|talk| - 1] == Stdout(Aborted)
    // an approved write ends with the reboot, or with the error the write raised
    ensures !dryRun && (forceConfirm || (next < |lines| && Confirms(lines[next]))) ==>
      |effects| > 1 && effects[|effects| - 1] == if writeSucceeds then Reboot else Crash(OSError)
    // the warning and the prompt come before the answer is read; `--force` announces itself instead
    ensures !dryRun && !forceConfirm ==> |talk| >= 2 && talk[..2] == [Stdout(RebootWarning), Stdout(ConfirmPrompt)]
    ensures !dryRun && forceConfirm ==> talk == [Stdout(ForceNotice), Stdout(Applying)]
    // "Applying" is announced before the write
    ensures !dryRun && (forceConfirm || (next < |lines| && Confirms(lines[next]))) ==>
      |talk| > 0 && talk[|talk| - 1] == Stdout(Applying)
  {
    talk, effects := [], [];
    if dryRun {
      InertPerformsNothing(effects, NetplanPath, writeSucceeds);
      return [Stdout(DryRunYaml(doc))], effects;
    }
    if !forceConfirm {
      talk := [Stdout(RebootWarning), Stdout(ConfirmPrompt)];
      if next >= |lines| {
        effects := [Crash(EOFError)];
        InertPerformsNothing(effects, NetplanPath, writeSucceeds);
        return;
      }
      if !Confirms(lines[next]) {
        talk := talk + [Stdout(Aborted)];
        InertPerformsNothing(effects, NetplanPath, writeSucceeds);
        return;
      }
    } else {
      talk := [Stdout(ForceNotice)];
    }
    talk := talk + [Stdout(Applying)];
    effects := ApplyEffects(doc, writeSucceeds);
    ApplyEffectsWriteThenReboot(doc, writeSucceeds);
    assert 0 < |effects| - 1;
  }

  /**
   * What selection prints before a profile is chosen after `consumed` lines:
   * nothing under `--ap`; otherwise the listing, a prompt and a complaint per
   * rejected line, and the prompt the accepted line answered.
   */
  function Dialogue(profiles: seq<Profile>, forceAp: bool, consumed: nat): seq<Event> {
    if forceAp || !Listable(profiles) || consumed == 0 then []
    else Listing(profiles) + Rejected(|profiles|, consumed - 1) + [Stdout(SelectPrompt(|profiles|))]
  }

  /**
   * The selection step of `run`: with `forceAp` the overridden `ap_settings`,
   * otherwise nothing when there are no profiles, else the interactive
   * choice. When no profile results, `events` is everything `run` does.
   */
  method Choose(store: Store, forceAp: bool, lines: seq<string>) returns (pick: Option<Pick>, events: seq<Event>)
    ensures pick == Selected(store, forceAp, lines)
    ensures pick.Some? ==> OnlyOutput(events) && pick.value.profile.name.Some?
    ensures pick.Some? && !forceAp ==> pick.value.profile.ssid.Some?
    ensures Inert(events)
    ensures forceAp ==> events == []
    ensures !forceAp && store.profiles == [] ==> events == [Stdout(NoProfiles)]
    ensures pick.Some? ==> events == Dialogue(store.profiles, forceAp, pick.value.consumed)
    // a selection yielding no profile ends in its exception, after output only
    ensures pick.None? && !forceAp && store.profiles != [] ==>
      |events| > 0 && events[|events| - 1] == Crash(SelectionFault(store.profiles)) &&
      OnlyOutput(events[..|events| - 1])
  {
    if forceAp {
      return Some(Pick(ForcedApProfile(store), 0)), [];
    }
    if store.profiles == [] {
      return None, [Stdout(NoProfiles)];
    }
    var r;
    r, events := SelectProfileInteractively(store.profiles, lines);
    if r.Failed? {
      assert (events + [Crash(r.fault)])[..|events|] == events;
      return None, events + [Crash(r.fault)];
    }
    pick := Some(Pick(r.profile, r.consumed));
  }

  /** The summary `run` prints before concluding: name, SSID, mode (by default "Client"), identity and DHCP flag. */
  function SummaryOf(p: Profile): Message
    requires p.name.Some? && p.ssid.Some?
  {
    Summary(p.name.value, p.ssid.value, p.mode.GetOr("Client"), p.identity, DhcpOf(p))
  }

  /**
   * The rest of `run` once the selected profile compiled to `doc`, after the
   * output `before`: the summary, then the conclusion with the line at `next`.
   */
  method Proceed(before: seq<Event>, selected: Profile, doc: Document, dryRun: bool, forceConfirm: bool,
                 lines: seq<string>, next: nat, writeSucceeds: bool) returns (trace: seq<Event>)
    requires OnlyOutput(before) && selected.name.Some? && selected.ssid.Some?
    ensures Performs(trace, if !dryRun && (forceConfirm || (next < |lines| && Confirms(lines[next]))) then Some(doc) else None,
                     NetplanPath, writeSucceeds)
    ensures |before| < |trace| && trace[..|before| + 1] == before + [Stdout(SummaryOf(selected))]
    ensures dryRun ==> trace[|trace| - 1] == Stdout(DryRunYaml(doc))
    ensures !dryRun && (forceConfirm || (next < |lines| && Confirms(lines[next]))) && !writeSucceeds ==>
      trace[|trace| - 1] == Crash(OSError)
  {
    var talk, effects := Conclude(doc, dryRun, forceConfirm, lines, next, writeSucceeds);
    var quiet := before + [Stdout(SummaryOf(selected))] + talk;
    assert OnlyOutput(quiet);
    OutputThenPerforms(quiet, effects, if !dryRun && (forceConfirm || (next < |lines| && Confirms(lines[next]))) then Some(doc) else None,
                       NetplanPath, writeSucceeds);
    trace := quiet + effects;
    assert trace[..|before| + 1] == before + [Stdout(SummaryOf(selected))];
  }

  /**
   * `run`: loads the profiles, selects one (forced to the access-point
   * profile by `forceAp`), compiles it, prints the summary, and concludes.
   * `writeSucceeds` is whether the host accepts the write.
   */
  method Run(load: Load, forceAp: bool, dryRun: bool, forceConfirm: bool, lines: seq<string>, writeSucceeds: bool)
    returns (trace: seq<Event>)
    // the write and the reboot happen exactly when due, with the compiled document, once each, reboot last
    ensures Performs(trace, Applied(load, forceAp, dryRun, forceConfirm, lines), NetplanPath, writeSucceeds)
    // a dry run shows the document instead
    ensures dryRun && load.Loaded? && Selected(load.store, forceAp, lines).Some? &&
            GenerateNetplan(Selected(load.store, forceAp, lines).value.profile).Success? ==>
      |trace| > 0 &&
      trace[|trace| - 1] == Stdout(DryRunYaml(GenerateNetplan(Selected(load.store, forceAp, lines).value.profile).value))
    // the early exits
    ensures load.Missing? ==> trace == [Stdout(FileNotFound(ProfilesPath)), Exit(1)]
    ensures load.Malformed? ==> trace == [Crash(JSONDecodeError)]
    ensures load.Loaded? && !forceAp && load.store.profiles == [] ==> trace == [Stdout(NoProfiles)]
    ensures load.Loaded? && forceAp && ForcedApProfile(load.store).ssid.None? ==> trace == [Crash(KeyError("ssid"))]
    ensures load.Loaded? && !forceAp && load.store.profiles != [] && ChoiceFor(load.store.profiles, lines).None? ==>
      |trace| > 0 && trace[|trace| - 1] == Crash(SelectionFault(load.store.profiles)) &&
      OnlyOutput(trace[..|trace| - 1])
    ensures Applied(load, forceAp, dryRun, forceConfirm, lines).Some? && !writeSucceeds ==>
      |trace| > 0 && trace[|trace| - 1] == Crash(OSError)
    // the summary of the compiled profile is printed right after the selection dialogue,
    // so before the dry-run output, the confirmation and the write
    ensures load.Loaded? && Selected(load.store, forceAp, lines).Some? ==>
      Selected(load.store, forceAp, lines).value.profile.name.Some?
    ensures load.Loaded? && Selected(load.store, forceAp, lines).Some? &&
            GenerateNetplan(Selected(load.store, forceAp, lines).value.profile).Success? ==>
      var pick := Selected(load.store, forceAp, lines).value;
      var shown := Dialogue(load.store.profiles, forceAp, pick.consumed);
      |shown| < |trace| && trace[..|shown| + 1] == shown + [Stdout(SummaryOf(pick.profile))]
  {
    if load.Missing? {
      trace := [Stdout(FileNotFound(ProfilesPath)), Exit(1)];
      InertPerformsNothing(trace, NetplanPath, writeSucceeds);
      return;
    }
    if load.Malformed? {
      trace := [Crash(JSONDecodeError)];
      InertPerformsNothing(trace, NetplanPath, writeSucceeds);
      return;
    }
    var pick, before := Choose(load.store, forceAp, lines);
    if pick.None? {
      InertPerformsNothing(before, NetplanPath, writeSucceeds);
      return before;
    }
    var selected := pick.value.profile;
    var compiled := GenerateNetplan(selected);
    if compiled.Failure? {
      trace := before + [Crash(KeyError(compiled.error))];
      InertPerformsNothing(trace, NetplanPath, writeSucceeds);
      return;
    }
    var next := pick.value.consumed;
    assert Applied(load, forceAp, dryRun, forceConfirm, lines) ==
      if !dryRun && (forceConfirm || (next < |lines| && Confirms(lines[next]))) then Some(compiled.value) else None;
    trace := Proceed(before, selected, compiled.value, dryRun, forceConfirm, lines, next, writeSucceeds);
  }
}

=== FILE: wrappers.dfy ===
/** Optional values and results with an error, as used throughout the model. */
module Wrappers {

  /** A value that may be absent: an absent key of a profile, a line that does not parse. */
  datatype Option<+T> = None | Some(value: T) {

    /** The value, or `default` when absent (Python's `dict.get(key, default)`). */
    function GetOr(default: T): T {
      match this
      case Some(v) => v
      case None => default
    }
  }

  /** The outcome of an operation that may fail with an error value. */
  datatype Result<+R, +E> = Success(value: R) | Failure(error: E)
}
